=== FILE: README.md ===
# Call signalling of the VideoCall component, modelled in Dafny

The `VideoCall` component sets up a one-to-one audio or video call between two
users. Signalling rows (offer, answer, ICE candidate, end) travel through a
relay table that both sides watch on a shared channel. This project models the
component's call logic as a pure state machine: one immutable `State` record
and a transition function `Step(state, event)`. React, the relay client and the
browser's peer connection are abstracted away.

- `options.dfy` — `Option`, for absent members of a relay row and for parsing.
- `negotiation.dfy` (module `Signaling`) — the negotiation record. It holds the
  one-shot answer guard `hasAnswered`, the flag `remoteDescriptionSet` and the
  ICE-candidate queue. Draining is written twice: `Drain` is a recursive
  function, and `ProcessQueuedCandidates` is the `while` loop itself. The module
  also has the candidate branch and the set-remote-description-then-drain
  sequence.
- `call.dfy` (module `VideoCall`) — the full component state and the events it
  reacts to. `Step` runs one event and `Run` runs a sequence of events. `Good`
  is the invariant every reachable state keeps.
- `call_properties.dfy` (module `CallProperties`) — lemmas about `Step` and `Run`.
- `duration.dfy` (module `Duration`) — `formatDuration`, and a parser that
  serves as its partner.
- `channel.dfy` (module `Channel`) — the channel id, built by sorting the two
  user ids and joining them.

Foreign values are opaque. A session description or an ICE candidate is a
payload plus the browser's verdict on it (`acceptable`): whether
`setRemoteDescription` or `addIceCandidate` resolves. A closed connection
rejects everything. Three things are inputs to the model:

- whether getUserMedia is granted (`MediaReady(granted)`);
- the relay rows delivered (`Deliver`);
- the connection's ICE state changes and remote tracks.

Each callback runs to completion before the next event. The relay output is a
log of inserted row kinds (`published`). `endCall` invocations and `onClose`
calls are counted.

Some of the code's behaviour differs from what one might expect of a signalling
engine. The model follows the code in each case:

- A responder with no incoming offer raises no error. It creates the connection
  and subscribes without applying anything, so its candidates queue forever.
- The responder's drain right after applying the offer always drains an empty
  queue. Only the channel handler fills the queue, and it is subscribed after
  the responder branch.
- `processQueuedCandidates` takes a candidate off the queue before trying it. A
  rejected candidate is reported and dropped, not re-queued.
- `hasAnswered` is raised before `setRemoteDescription`. If the first answer is
  rejected, no later answer is tried, and queued candidates are never applied.
- `endCall` has no guard. An End row after the call has ended invokes it again.
- The duration counts once `isConnecting` is false. A remote track with a stream
  clears that flag as well as ICE `connected` does.
- The offer or answer is published before the channel is subscribed.
- Once the connection is closed, it fires no more ICE or track events. The model ignores those events on a closed connection.
- After `endCall` the handler keeps running. A candidate that arrives then is
  queued if no remote description was set, and is never applied. Otherwise it
  is handed to the closed connection, which rejects it.

## Model

| member | source | states |
|---|---|---|
| VideoCall.Init | src/components/VideoCall.tsx:30-49 | The first render: connecting, duration 0, not muted, camera off only for a voice call, speaker on, no connection, empty queue. `CallProperties.InitGood` states that it satisfies `Good`. |
| VideoCall.StartCall | src/components/VideoCall.tsx:159-232 | startCall once getUserMedia has settled on a mounted component. What it does in each branch is stated by `CallProperties.InitiatorStart`, `ResponderStart`, `ResponderStartWithoutOffer`, `MediaRefusedCloses` and `StartsOnce`. |
| VideoCall.SettleAfterUnmount | src/components/VideoCall.tsx:166-169 | getUserMedia settling after unmount. A grant releases its tracks. A refusal still reaches the catch and calls onClose. This is stated by `CallProperties.MediaRefusedCloses` and `LateGrantReleased`. |
| VideoCall.OnMessage | src/components/VideoCall.tsx:205-224 | The channel handler. Its branches are stated by the candidate, answer, End-row and ignored-row lemmas below, from `CandidateQueuedBeforeRemote` to `EndCallTriggers`. `OtherRowsIgnored` covers the fall-through branch. |
| VideoCall.OnIceChange | src/components/VideoCall.tsx:144-151 | The ICE connection-state callback. `ConnectingEndsOnConnectivity`, `IceFailureEndsCall` and `EndCallTriggers` state what it does. |
| VideoCall.OnTrack | src/components/VideoCall.tsx:115-129 | The remote-track callback. Only a track with a stream counts. `ConnectingEndsOnConnectivity` states its effect on the connecting flag. |
| VideoCall.OnTick | src/components/VideoCall.tsx:75-82 | The one-second interval. `DurationCountsConnectedTicks` and `TicksAfterConnected` state its effect. |
| VideoCall.OnToggleMute | src/components/VideoCall.tsx:262-267 | toggleMute. `ToggleIndicatorsFollow`, `ToggleTwiceRestores` and `TogglesLeaveCallAlone` state its effect. |
| VideoCall.OnToggleVideo | src/components/VideoCall.tsx:269-274 | toggleVideo. It is a no-op without a video track (`VideoToggleInVoiceCallIsNoOp`); otherwise the toggle lemmas apply. |
| VideoCall.OnToggleSpeaker | src/components/VideoCall.tsx:276-280 | toggleSpeaker. `ToggleIndicatorsFollow` and `ToggleTwiceRestores` state its effect. |
| VideoCall.EndCall | src/components/VideoCall.tsx:249-260 | endCall: insert an End row, stop the tracks if the stream is visible, close the connection, call onClose. This is stated by `EndMessageEndsCall`, `IceFailureEndsCall`, `EndCallTriggers` and `TeardownStopsCapture`. |
| VideoCall.Cleanup | src/components/VideoCall.tsx:235-246 | The mount effect's cleanup. `CleanupEffects` states that it closes the connection and removes the channel. `UnmountedIgnoresEvents` states that later events are ignored. `TeardownStopsCapture` and `UnmountedHoldsNoCapture` state its effect on the capture. |
| VideoCall.Step | src/components/VideoCall.tsx:155-260 | One event, with every teardown seeing the current stream. `StepPreservesGood` states the invariant it keeps. |
| VideoCall.StepAsWritten | src/components/VideoCall.tsx:235-260 | One event with the source's stale teardown closures. `StepAsWrittenSameButCapture` states that it differs from `Step` only in whether the capture tracks keep running. |
| VideoCall.RunAsWritten | src/components/VideoCall.tsx:155-260 | A run of the source's transitions. `AsWrittenAgreesButCapture` relates it to `Run`. |
| Channel.Below | src/components/VideoCall.tsx:203 | The default string order of the sort. `BelowAsymmetric`, `BelowTransitive` and `BelowTotal` together state that it is a strict total order. |
| Channel.BelowAsymmetric | src/components/VideoCall.tsx:203 | No two ids are each below the other. |
| Channel.BelowTransitive | src/components/VideoCall.tsx:203 | If a is below b and b is below c, then a is below c. |
| Channel.BelowTotal | src/components/VideoCall.tsx:203 | Any two distinct ids are ordered one way or the other. |
| Channel.ChannelName | src/components/VideoCall.tsx:204 | The channel name is `call-` followed by the two ids joined by '-', in one order or the other. `ChannelNameSymmetric` states that both parties get the same name. |
| Duration.PadStart | src/components/VideoCall.tsx:285 | Left padding to a width: the result has the width, or the input's length if that is larger. `SecondsField` states its content for the seconds field. |
| Duration.Label | src/components/VideoCall.tsx:282-286 | The label is a digit field denoting the minutes, with no leading zero, a colon, then two digits denoting the seconds, the first at most 5. |
| Duration.ParseDuration | src/components/VideoCall.tsx:282-286 | Reads an "m:ss" label back. It is the partner of `FormatDuration` in `FormatParseRoundTrip`. |
| Signaling.Drain | src/components/VideoCall.tsx:84-95 | Draining applies every queued candidate once, in queue order. Rejected ones are reported in order and the drain carries on. The queue ends empty and nothing else changes. |
| Signaling.ProcessQueuedCandidates | src/components/VideoCall.tsx:84-95 | The shift / try / catch loop has the same outcome as `Drain`: queue empty, applied log extended by the old queue, rejections reported in order. |
| Signaling.FailuresAreRejections | src/components/VideoCall.tsx:88-92 | A drain reports a candidate exactly when addIceCandidate rejects it, and reports no more candidates than were queued. |
| Signaling.ReceiveCandidate | src/components/VideoCall.tsx:215-220 | A candidate goes to the end of the queue without being applied while the remote description is unset. Once it is set, the candidate is applied at once and the queue is untouched. Either way, no candidate is lost or reordered (`Valid` is preserved). |
| Signaling.SetRemote | src/components/VideoCall.tsx:212-214 | The description is tried once. The flag rises exactly when the browser accepts it, and then the queue is drained into the applied log. A rejection changes nothing but the attempt log. The buffering invariant is preserved. |
| Signaling.BufferedInArrivalOrder | src/components/VideoCall.tsx:218-220 | Before the remote description is set, any sequence of candidates is appended to the queue in arrival order and none is applied. |
| Signaling.AppliedOnArrival | src/components/VideoCall.tsx:216-217 | After it is set, any sequence of candidates is applied in arrival order and the queue is unchanged. |
| Signaling.BufferThenDrain | src/components/VideoCall.tsx:212-220 | Candidates buffered before the remote description are all applied, once each and in arrival order, as soon as the description is accepted. The buffer is then empty and the applied log equals the arrival log. |
| CallProperties.StepPreservesGood | src/components/VideoCall.tsx:205-224 | Every transition preserves the call invariant `Good`. |
| CallProperties.ReachableGood | src/components/VideoCall.tsx:30-49 | Every state reachable from the first render satisfies `Good`. Candidates are applied or queued, in order. The flag is set only after an accepted answer or offer, and the queue is then empty. At most one description is tried. The duration is 0 while connecting. Each indicator mirrors what it controls. |
| CallProperties.NoCandidateLostOrDuplicated | src/components/VideoCall.tsx:215-220 | In every reachable state, the applied candidates followed by the queued ones are exactly the arrived ones. Once the remote description is set, every arrived candidate has been applied. |
| CallProperties.AtMostOneRemoteDescription | src/components/VideoCall.tsx:210-212 | In every reachable state, at most one remote description has been handed to setRemoteDescription. |
| CallProperties.BufferedCandidatesDrainedInOrder | src/components/VideoCall.tsx:210-220 | Take candidate rows delivered before the initiator's first accepted answer. After that answer, they and the earlier queue are applied in arrival order, and the queue is empty. |
| CallProperties.CandidatesAfterRemoteAppliedDirectly | src/components/VideoCall.tsx:216-217 | Once the remote description is set, delivered candidate rows are applied directly in delivery order, and the queue stays empty. |
| CallProperties.CandidateQueuedBeforeRemote | src/components/VideoCall.tsx:218-220 | Before the remote description is set, a candidate row appends to the queue. Nothing is applied and nothing else changes. |
| CallProperties.CandidateAppliedAfterRemote | src/components/VideoCall.tsx:216-217 | After it is set, a candidate row is applied at once. The queue is untouched and nothing else changes. |
| CallProperties.MessageIgnoredWithoutConnection | src/components/VideoCall.tsx:207 | With no peer connection, every relay row leaves the state unchanged. |
| CallProperties.DuplicateAnswerIgnored | src/components/VideoCall.tsx:210-211 | Once `hasAnswered` is set, any answer row leaves the state unchanged. |
| CallProperties.OtherRowsIgnored | src/components/VideoCall.tsx:208-223 | Unparseable data, an offer row, a row of another type, an answer without an sdp and a candidate row without a candidate all leave the state unchanged. An answer without an sdp leaves the one-shot guard down, so a later answer is still applied. |
| CallProperties.AnswerAtResponderIgnored | src/components/VideoCall.tsx:210 | An answer row reaching a responder leaves the state unchanged. |
| CallProperties.FirstAnswerApplied | src/components/VideoCall.tsx:210-214 | The initiator's first answer with an sdp raises the guard, and its description is the only one tried. The flag rises iff the browser accepts it, and then the queue is drained. A rejected answer leaves the queue waiting. Nothing outside the negotiation changes. |
| CallProperties.RemoteFlagOnlyFromDescription | src/components/VideoCall.tsx:188-214 | The flag is never lowered. It rises only on the responder's start with an offer or on the initiator's first answer, and each time the old queue has just been applied and emptied. |
| CallProperties.EndMessageEndsCall | src/components/VideoCall.tsx:221-222 | An End row reaching a listening handler invokes endCall once. An End row is inserted, the connection closed and the parent asked to close. |
| CallProperties.IceFailureEndsCall | src/components/VideoCall.tsx:148-149 | ICE `failed` or `closed` on an open connection invokes endCall once. |
| CallProperties.EndCallTriggers | src/components/VideoCall.tsx:249-259 | endCall runs at most once per event. It runs exactly on the hang-up button, an ICE failure or closure on an open connection, or an End row reaching a listening handler. |
| CallProperties.TeardownStopsCapture | src/components/VideoCall.tsx:253-255 | Under the corrected teardown, any event that invokes endCall or unmounts leaves no local capture track running. |
| CallProperties.CleanupEffects | src/components/VideoCall.tsx:235-246 | Unmounting marks the component unmounted, closes an existing connection and removes the channel. It publishes nothing and does not call onClose. |
| CallProperties.UnmountedIgnoresEvents | src/components/VideoCall.tsx:235-246 | After unmounting, every event other than getUserMedia settling leaves the state unchanged. |
| CallProperties.UnmountedHoldsNoCapture | src/components/VideoCall.tsx:235-239 | Under the corrected cleanup, no reachable unmounted state holds a running capture track. |
| CallProperties.RemoteEndLeavesCaptureRunningAsWritten | src/components/VideoCall.tsx:235-239 | Under the source's stale closures, this run leaves the capture tracks running: an initiator video call starts, receives an End row, then unmounts. |
| CallProperties.StartsOnce | src/components/VideoCall.tsx:159-169 | getUserMedia settles once. A second settling changes nothing. |
| CallProperties.MediaRefusedCloses | src/components/VideoCall.tsx:228-230 | A refused getUserMedia, mounted or not, calls onClose once and creates no stream, connection or channel. |
| CallProperties.LateGrantReleased | src/components/VideoCall.tsx:166-170 | A grant that settles after unmount releases its tracks. Nothing is created and onClose is not called. |
| CallProperties.InitiatorStart | src/components/VideoCall.tsx:172-186 | The initiator keeps the stream, creates the connection, publishes the offer and subscribes. Nothing else changes and nothing is applied. |
| CallProperties.ResponderStart | src/components/VideoCall.tsx:187-201 | A responder with an offer tries it exactly once. The flag rises iff it is accepted. Accepted: the queue is drained, the answer published and the channel subscribed. Rejected: onClose is called, and nothing is published or subscribed. |
| CallProperties.ResponderStartWithoutOffer | src/components/VideoCall.tsx:178-203 | A responder without an offer raises no error. It keeps the stream, creates the connection and subscribes; nothing is applied or published. |
| CallProperties.StepAsWrittenSameButCapture | src/components/VideoCall.tsx:235-260 | The source's transition and the corrected one keep states that differ only in whether the capture tracks are running. |
| CallProperties.RunAsWrittenSameButCapture | src/components/VideoCall.tsx:155-260 | The same holds over any sequence of events. |
| CallProperties.AsWrittenAgreesButCapture | src/components/VideoCall.tsx:155-260 | From the first render, the source's runs reach the same negotiation, controls, relay output, lifecycle, endCall count and close requests as the corrected runs. |
| CallProperties.NoCandidateLostAsWritten | src/components/VideoCall.tsx:205-224 | In the code as written too, no candidate is lost or applied twice, and at most one remote description is tried. |
| CallProperties.ConnectingIsOneWay | src/components/VideoCall.tsx:119-147 | No event sets `isConnecting` back to true once it is false. |
| CallProperties.ConnectingEndsOnConnectivity | src/components/VideoCall.tsx:119-147 | While connecting, an event ends connecting iff it is ICE `connected` or a remote track with a stream, on a mounted component with an open connection. |
| CallProperties.DurationCountsConnectedTicks | src/components/VideoCall.tsx:75-82 | A tick adds exactly one second when mounted and not connecting. Every other event leaves the duration unchanged. |
| CallProperties.DurationZeroWhileConnecting | src/components/VideoCall.tsx:35-37 | The duration starts at 0 and stays 0 in every reachable state that is still connecting. |
| CallProperties.TicksAfterConnected | src/components/VideoCall.tsx:75-82 | Once connected, k ticks add exactly k seconds and change nothing else. |
| CallProperties.TogglesLeaveCallAlone | src/components/VideoCall.tsx:262-280 | Each toggle changes only its own pair: mute changes the audio track's enabled flag and `isMuted`; camera changes the video track's flag and `isVideoOff`; speaker changes the remote audio element's `muted` and `isSpeakerOn`. Everything else is unchanged, including the negotiation, connecting flag, duration, remote-stream flags, relay output and lifecycle. |
| CallProperties.ToggleTwiceRestores | src/components/VideoCall.tsx:262-280 | Applying any toggle twice restores the state. |
| CallProperties.ToggleIndicatorsFollow | src/components/VideoCall.tsx:262-280 | Each toggle flips its indicator, which keeps mirroring the track or element it controls. |
| CallProperties.VideoToggleInVoiceCallIsNoOp | src/components/VideoCall.tsx:269-274 | In a voice call there is no video track, so the camera toggle changes nothing. |
| CallProperties.InitiatorScenario | src/components/VideoCall.tsx:178-224 | An initiator receives two candidates before the answer and one after, then ICE connects. All three are applied in arrival order, the queue is empty, the call is connected, and the only offer, answer or end row published is the offer. |
| Duration.FormatDuration | src/components/VideoCall.tsx:282-286 | The label is digits, a colon and two digits, and the first seconds digit is at most 5. The minutes have no leading zero, so 65 seconds is `1:05`. |
| Duration.Decimal | src/components/VideoCall.tsx:285 | The decimal rendering is a non-empty digit string with no leading zero, one digit exactly below 10. |
| Duration.SecondsField | src/components/VideoCall.tsx:284-285 | A zero-padded seconds field below 60 is two digits, the first at most 5, denoting the seconds. |
| Duration.FormatDurationFields | src/components/VideoCall.tsx:282-286 | The minutes field denotes `s div 60` and the seconds field denotes `s mod 60`. |
| Duration.DecimalValue | src/components/VideoCall.tsx:285 | The decimal rendering denotes the number rendered. |
| Duration.FormatParseRoundTrip | src/components/VideoCall.tsx:282-286 | Parsing a formatted label gives back the seconds. |
| Duration.FormatDurationInjective | src/components/VideoCall.tsx:282-286 | Distinct durations get distinct labels. |
| Channel.SortedPair | src/components/VideoCall.tsx:203 | Sorting the two ids gives a permutation of them, in non-decreasing JavaScript string order. |
| Channel.ChannelId | src/components/VideoCall.tsx:203 | The channel id is the two ids joined by '-', in one order or the other. |
| Channel.ChannelIdSymmetric | src/components/VideoCall.tsx:203 | Both parties compute the same channel id. |
| Channel.ChannelNameSymmetric | src/components/VideoCall.tsx:203-204 | Both parties subscribe to the same `call-…` channel. |
| Channel.ChannelIdOrdered | src/components/VideoCall.tsx:203 | The smaller id comes first. |

## Findings

| source | as written | input that shows it | evidently intended | confidence | as-written member | corrected member |
|---|---|---|---|---|---|---|
| src/components/VideoCall.tsx:253-255 | Several closures are created by the first render and read that render's `stream`, which is null. These are the relay handler (line 222), the ICE callback (line 149) and the unmount cleanup (lines 237-239). So `if (stream)` is always false on those paths, and the local tracks are never stopped. Only the hang-up button, rendered later, stops them. | An initiator video call gets the camera, receives an `end` row and is unmounted. Camera and microphone stay live. | Every teardown stops the local capture tracks. | high; not executed | CallProperties.RemoteEndLeavesCaptureRunningAsWritten | CallProperties.TeardownStopsCapture |

`VideoCall.StepAsWritten` is the transition with the stale teardown.
`VideoCall.Step`, which every other lemma uses, is the corrected transition:
there, every teardown sees the current stream.

## Left out

- Interleaving at `await` points. Each callback runs to completion in the model. In the source, a drain awaits each `addIceCandidate`. A candidate row delivered during that wait finds the flag already set. It is applied directly, ahead of candidates still queued, so the arrival order is kept only when no row arrives mid-drain. Likewise, `isMounted` is checked only after getUserMedia. If the component unmounts during a later `await` in startCall, the code still subscribes afterwards. The cleanup has already run, so that channel is never removed.
- Rendering: JSX, `motion`, toasts, the attach-stream effects and media-element `play()` (lines 51-72, 288-357). `isBlurred`, `isMinimized`, and `connectionStatus` labels other than "Initializing..." and "Connected" are left out too. They are UI only.
- Publishing local ICE candidates through `onicecandidate` (lines 132-142). This is network output, and no state the handler reads depends on it.
- Relay rows are recorded only by kind, and only the offer, answer and end rows are logged. Their columns and payloads are not modelled. An insert's error result is not modelled either: the code never inspects it, and endCall swallows a throw.
- `RTCPeerConnection` configuration, STUN/TURN servers, SDP and candidate contents, and `getUserMedia` constraints. A voice call is modelled as having no video track.
- `createOffer`, `createAnswer` and `setLocalDescription` are assumed to resolve. If one rejected, control would reach the same catch as a refused getUserMedia. The model has that catch only for a refused getUserMedia and a rejected incoming offer.
- Unhandled rejections in the channel handler, such as a rejected direct `addIceCandidate` or a rejected answer. They end the callback. The model keeps their effect on state (the attempt is logged) but not the error itself.
- toggleSpeaker also flips the remote video element's `muted`. Only the audio element's flag is modelled.
- "Teardown exactly once" is not claimed. endCall has no guard, and the cleanup closes the connection again.
- ProfileSettings.tsx and layout.tsx are not part of this model. One is form handling over the data store; the other is markup.
- Channel.Below: compares `char` values. JavaScript compares UTF-16 code units, so the order can differ for characters outside the Basic Multilingual Plane.
- VideoCall.OnTick: the duration is an unbounded `nat`. In the source, the increment is a double addition, which stops growing at 2^53 seconds. At that size `formatDuration` would still print plain digits: exponent notation starts only at 10^21 minutes.
- Duration.PadStart: states only the length of the result. Its content is used only through `SecondsField`.

=== FILE: call.dfy ===
/**
 The call component as a state machine: one immutable record of what the
 component holds (its React state and refs, the peer connection's lifecycle,
 the local capture) and a transition function taking (state, event) to the next
 state. Each event is one callback the component reacts to; a callback runs to
 completion before the next event.
 */
module VideoCall {
  import opened Options
  import opened Signaling

  datatype CallType = Video | Voice

  /** The props the call logic reads: the role, the call type, and the sdp of the
      incoming signal a responder starts with (`incomingSignal?.sdp`). */
  datatype Config = Config(initiator: bool, callType: CallType, incomingOffer: Option<Description>)

  /** Local capture: whether the `stream` state is set, whether its tracks are
      still running, and the enabled flags of its audio track and (video calls
      only) its video track. */
  datatype Media = Media(hasStream: bool, tracksLive: bool, audioEnabled: bool, videoEnabled: bool)

  /** The runtime controls and indicators. `remoteAudioMuted` is the `muted` flag of
      the remote audio element that toggleSpeaker flips. */
  datatype Controls = Controls(
    isConnecting: bool,
    connectionStatus: string,
    callDuration: nat,
    isMuted: bool,
    isVideoOff: bool,
    isSpeakerOn: bool,
    remoteAudioMuted: bool,
    hasRemoteStream: bool,
    hasRemoteVideo: bool)

  /** Rows the component inserts into the relay table. */
  datatype Outgoing = OfferSent | AnswerSent | EndSent

  /** `mounted` is the mount effect's `isMounted`; `started` records that startCall
      has got past getUserMedia; `subscribed` that the relay channel is listening.
      `endCalls` counts endCall invocations and `closeRequests` calls of `onClose`. */
  datatype State = State(
    config: Config,
    mounted: bool,
    started: bool,
    subscribed: bool,
    neg: Negotiation,
    media: Media,
    ui: Controls,
    published: seq<Outgoing>,
    endCalls: nat,
    closeRequests: nat)

  /** The relay row's `type`. */
  datatype MessageKind = OfferMsg | AnswerMsg | CandidateMsg | EndMsg | OtherMsg

  /** The row's `signal_data` after JSON.parse: its `sdp` and `candidate` members
      when present (truthy); `Unparseable` when JSON.parse throws. */
  datatype SignalData = Unparseable | Parsed(sdp: Option<Description>, candidate: Option<Candidate>)

  datatype Message = Message(kind: MessageKind, data: SignalData)

  datatype IceState = IceNew | IceChecking | IceConnected | IceCompleted | IceDisconnected | IceFailed | IceClosed

  datatype TrackKind = AudioTrack | VideoTrack

  /** What the component reacts to: getUserMedia settling (granted or refused),
      a relay row delivered to the channel handler, an ICE connection-state
      change, a remote track, a one-second timer tick, the three toggles, the
      hang-up button, and unmounting. */
  datatype Event =
    | MediaReady(granted: bool)
    | Deliver(msg: Message)
    | IceChange(ice: IceState)
    | TrackArrived(kind: TrackKind, withStream: bool)
    | Tick
    | ToggleMute
    | ToggleVideo
    | ToggleSpeaker
    | HangUp
    | Unmount

  const Initializing: string := "Initializing..."
  const ConnectedLabel: string := "Connected"

  /** The first render: connecting, no duration, not muted, camera off only for a
      voice call, speaker on, no connection and an empty candidate queue. */
  function Init(config: Config): (r: State)
  {
    State(
      config, true, false, false, Idle,
      Media(false, false, true, true),
      Controls(true, Initializing, 0, false, config.callType == Voice, true, false, false, false),
      [], 0, 0)
  }

  /** endCall: insert an End row (a failure is swallowed), stop the local tracks if
      the closure sees the stream, close the connection if there is one, and ask
      the parent to close. */
  function EndCall(s: State, seesStream: bool): (r: State)
  {
    s.(published := s.published + [EndSent],
       media := if seesStream && s.media.hasStream then s.media.(tracksLive := false) else s.media,
       neg := if s.neg.pcExists then s.neg.(pcClosed := true) else s.neg,
       endCalls := s.endCalls + 1,
       closeRequests := s.closeRequests + 1)
  }

  /** The mount effect's cleanup: mark unmounted, stop the local tracks if the
      closure sees the stream, close the connection, remove the channel. */
  function Cleanup(s: State, seesStream: bool): (r: State)
  {
    s.(mounted := false,
       subscribed := false,
       media := if seesStream && s.media.hasStream then s.media.(tracksLive := false) else s.media,
       neg := if s.neg.pcExists then s.neg.(pcClosed := true) else s.neg)
  }

  /** startCall after getUserMedia settles. Refused: report and close. Granted:
      keep the stream, create the connection, then either publish an offer
      (initiator), or apply the incoming offer, drain, and publish an answer
      (responder with an offer), or do nothing (responder without one); finally
      subscribe to the relay channel. A rejected offer throws to the catch, which
      closes without subscribing. */
  function StartCall(s: State, granted: bool): (r: State)
  {
    if s.started then s
    else if !granted then s.(started := true, closeRequests := s.closeRequests + 1)
    else
      var s1 := s.(started := true,
                   media := s.media.(hasStream := true, tracksLive := true),
                   neg := s.neg.(pcExists := true));
      if s1.config.initiator then
        s1.(published := s1.published + [OfferSent], subscribed := true)
      else match s1.config.incomingOffer
        case None => s1.(subscribed := true)
        case Some(offer) =>
          var s2 := s1.(neg := SetRemote(s1.neg, offer));
          if AcceptsRemote(s1.neg, offer) then
            s2.(published := s2.published + [AnswerSent], subscribed := true)
          else
            s2.(closeRequests := s2.closeRequests + 1)
  }

  /** The channel handler: nothing without a channel or a connection; otherwise the
      first answer with an sdp (initiator only) is applied and followed by a drain,
      a candidate is applied or queued, an End row ends the call, and anything
      else (an offer, a duplicate answer, an answer at a responder, a row without
      the expected member, unparseable data) is ignored. */
  function OnMessage(s: State, m: Message, seesStream: bool): (r: State)
  {
    if !s.subscribed || !s.neg.pcExists then s
    else match m.data
      case Unparseable => s
      case Parsed(sdp, candidate) =>
        if m.kind == AnswerMsg && s.config.initiator && sdp.Some? && !s.neg.hasAnswered then
          s.(neg := SetRemote(s.neg.(hasAnswered := true), sdp.value))
        else if m.kind == CandidateMsg && candidate.Some? then
          s.(neg := ReceiveCandidate(s.neg, candidate.value))
        else if m.kind == EndMsg then
          EndCall(s, seesStream)
        else s
  }

  /** oniceconnectionstatechange. A closed connection reports nothing more. */
  function OnIceChange(s: State, ice: IceState, seesStream: bool): (r: State)
  {
    if !s.neg.pcExists || s.neg.pcClosed then s
    else if ice == IceConnected then
      s.(ui := s.ui.(isConnecting := false, connectionStatus := ConnectedLabel))
    else if ice == IceFailed || ice == IceClosed then
      EndCall(s, seesStream)
    else s
  }

  /** ontrack: only a track that comes with a stream counts. */
  function OnTrack(s: State, kind: TrackKind, withStream: bool): (r: State)
  {
    if !s.neg.pcExists || s.neg.pcClosed || !withStream then s
    else
      s.(ui := s.ui.(hasRemoteStream := true,
                     hasRemoteVideo := s.ui.hasRemoteVideo || kind == VideoTrack,
                     isConnecting := false,
                     connectionStatus := ConnectedLabel))
  }

  /** The one-second interval: counts only once connecting is over. */
  function OnTick(s: State): (r: State)
  {
    if s.ui.isConnecting then s
    else s.(ui := s.ui.(callDuration := s.ui.callDuration + 1))
  }

  /** toggleMute: flip the audio track's enabled flag and mirror it. */
  function OnToggleMute(s: State): (r: State)
  {
    if !s.media.hasStream then s
    else
      var enabled := !s.media.audioEnabled;
      s.(media := s.media.(audioEnabled := enabled), ui := s.ui.(isMuted := !enabled))
  }

  /** toggleVideo: only a stream with a video track (a video call) has one to flip. */
  function OnToggleVideo(s: State): (r: State)
  {
    if !s.media.hasStream || s.config.callType != Video then s
    else
      var enabled := !s.media.videoEnabled;
      s.(media := s.media.(videoEnabled := enabled), ui := s.ui.(isVideoOff := !enabled))
  }

  /** toggleSpeaker: flip the remote audio element's mute and the indicator. */
  function OnToggleSpeaker(s: State): (r: State)
  {
    s.(ui := s.ui.(remoteAudioMuted := !s.ui.remoteAudioMuted, isSpeakerOn := !s.ui.isSpeakerOn))
  }

  /** getUserMedia settling after unmount. The unmount check sits on the success
      path only: a grant stops its own tracks and returns, while a refusal still
      reaches startCall's catch, which asks the parent to close. */
  function SettleAfterUnmount(s: State, granted: bool): (r: State)
  {
    if s.started then s
    else if granted then s.(started := true)
    else s.(started := true, closeRequests := s.closeRequests + 1)
  }

  /** One transition. `asWritten` selects the source's teardown from the relay
      handler, the ICE callback and the cleanup, whose closures read the `stream`
      of the first render (always null); otherwise those teardowns see the
      current stream. The hang-up button always sees it. After unmounting, the
      timer is cleared, the channel removed, the connection closed and state
      setters have no effect, so every event but getUserMedia settling is
      ignored. */
  function Advance(s: State, e: Event, asWritten: bool): (r: State)
  {
    if !s.mounted then
      (if e.MediaReady? then SettleAfterUnmount(s, e.granted) else s)
    else match e
      case MediaReady(granted) => StartCall(s, granted)
      case Deliver(m) => OnMessage(s, m, !asWritten)
      case IceChange(ice) => OnIceChange(s, ice, !asWritten)
      case TrackArrived(kind, withStream) => OnTrack(s, kind, withStream)
      case Tick => OnTick(s)
      case ToggleMute => OnToggleMute(s)
      case ToggleVideo => OnToggleVideo(s)
      case ToggleSpeaker => OnToggleSpeaker(s)
      case HangUp => EndCall(s, true)
      case Unmount => Cleanup(s, !asWritten)
  }

  /** The transition function, with every teardown stopping the local capture. */
  function Step(s: State, e: Event): (r: State)
  {
    Advance(s, e, false)
  }

  /** The transition function with the source's stale teardown closures. */
  function StepAsWritten(s: State, e: Event): (r: State)
  {
    Advance(s, e, true)
  }

  function Run(s: State, es: seq<Event>): (r: State)
    decreases |es|
  {
    if es == [] then s else Run(Step(s, es[0]), es[1..])
  }

  /** A run of the source's transition function. */
  function RunAsWritten(s: State, es: seq<Event>): (r: State)
    decreases |es|
  {
    if es == [] then s else RunAsWritten(StepAsWritten(s, es[0]), es[1..])
  }

  /** `a` and `b` differ at most in whether the local capture tracks are running. */
  predicate SameButCapture(a: State, b: State) {
    a == b.(media := b.media.(tracksLive := a.media.tracksLive))
  }

  /** What holds in every state the component can reach. */
  ghost predicate Good(s: State) {
    && Valid(s.neg)
    && (s.neg.remoteDescriptionSet ==>
          (s.config.initiator && s.neg.hasAnswered) || (!s.config.initiator && s.config.incomingOffer.Some?))
    && (s.neg.hasAnswered ==> s.config.initiator)
    && |s.neg.remoteAttempts| <= 1
    && (s.neg.remoteDescriptionSet ==> |s.neg.remoteAttempts| == 1 && s.neg.remoteAttempts[0].acceptable)
    && (s.config.initiator ==> (s.neg.remoteAttempts == [] <==> !s.neg.hasAnswered))
    && (!s.started ==> s.neg.remoteAttempts == [] && !s.neg.pcExists && !s.media.hasStream)
    && (s.subscribed ==> s.neg.pcExists && s.mounted)
    && (s.ui.isConnecting ==> s.ui.callDuration == 0)
    && s.ui.isSpeakerOn == !s.ui.remoteAudioMuted
    && s.ui.isMuted == !s.media.audioEnabled
    && s.ui.isVideoOff == (s.config.callType == Voice || !s.media.videoEnabled)
    && (s.media.tracksLive ==> s.media.hasStream && s.mounted)
  }
}

=== FILE: call_properties.dfy ===
/**
 What the call handler guarantees: the invariant every reachable state keeps,
 the candidate-buffering discipline over event sequences, the one-shot answer
 guard, how calls end, the connecting flag, the duration timer and the toggles.
 */
module CallProperties {
  import opened Options
  import opened Signaling
  import opened VideoCall

  // ---------------------------------------------------------------- invariant

  lemma InitGood(config: Config)
    ensures Good(Init(config))
    ensures Init(config).ui.isConnecting && Init(config).ui.callDuration == 0
  {
  }

  lemma StartCallPreservesGood(s: State, granted: bool)
    requires Good(s) && s.mounted
    ensures Good(StartCall(s, granted))
  {
    if !s.started && granted && !s.config.initiator && s.config.incomingOffer.Some? {
      var s1 := s.(started := true,
                   media := s.media.(hasStream := true, tracksLive := true),
                   neg := s.neg.(pcExists := true));
      assert Valid(s1.neg);
    }
  }

  lemma OnMessagePreservesGood(s: State, m: Message)
    requires Good(s) && s.mounted
    ensures Good(OnMessage(s, m, true))
  {
    if s.subscribed && s.neg.pcExists && m.data.Parsed? && m.kind == EndMsg {
      EndCallPreservesGood(s);
    }
  }

  lemma EndCallPreservesGood(s: State)
    requires Good(s)
    ensures Good(EndCall(s, true))
  {
  }

  lemma CleanupPreservesGood(s: State)
    requires Good(s)
    ensures Good(Cleanup(s, true))
  {
  }

  lemma OnIceChangePreservesGood(s: State, ice: IceState)
    requires Good(s)
    ensures Good(OnIceChange(s, ice, true))
  {
    if s.neg.pcExists && !s.neg.pcClosed && (ice == IceFailed || ice == IceClosed) {
      EndCallPreservesGood(s);
    }
  }

  lemma ControlsPreserveGood(s: State, e: Event)
    requires Good(s)
    requires e.TrackArrived? || e.Tick? || e.ToggleMute? || e.ToggleVideo? || e.ToggleSpeaker?
    ensures Good(Step(s, e))
  {
  }

  lemma StepPreservesGood(s: State, e: Event)
    requires Good(s)
    ensures Good(Step(s, e))
  {
    if s.mounted {
      match e
      case MediaReady(granted) => StartCallPreservesGood(s, granted);
      case Deliver(m) => OnMessagePreservesGood(s, m);
      case IceChange(ice) => OnIceChangePreservesGood(s, ice);
      case HangUp => EndCallPreservesGood(s);
      case Unmount => CleanupPreservesGood(s);
      case _ => ControlsPreserveGood(s, e);
    }
  }

  lemma {:induction false} RunPreservesGood(s: State, es: seq<Event>)
    requires Good(s)
    ensures Good(Run(s, es))
    decreases |es|
  {
    if es != [] {
      StepPreservesGood(s, es[0]);
      RunPreservesGood(Step(s, es[0]), es[1..]);
    }
  }

  /** Every state reachable from the first render satisfies the invariant. */
  lemma ReachableGood(config: Config, es: seq<Event>)
    ensures Good(Run(Init(config), es))
  {
    InitGood(config);
    RunPreservesGood(Init(config), es);
  }

  /** No candidate is lost or applied twice: in every reachable state the
      candidates applied so far followed by those still queued are exactly the
      candidates that arrived, in arrival order; and nothing waits in the queue
      once the remote description is set. */
  lemma NoCandidateLostOrDuplicated(config: Config, es: seq<Event>)
    ensures var s := Run(Init(config), es);
      && s.neg.applied + s.neg.queue == s.neg.arrived
      && (s.neg.remoteDescriptionSet ==> s.neg.queue == [] && s.neg.applied == s.neg.arrived)
  {
    ReachableGood(config, es);
  }

  /** A remote description is handed to setRemoteDescription at most once per call. */
  lemma AtMostOneRemoteDescription(config: Config, es: seq<Event>)
    ensures |Run(Init(config), es).neg.remoteAttempts| <= 1
  {
    ReachableGood(config, es);
  }

  // ------------------------------------------------------------------ start

  /** getUserMedia settles once: after the first settling, later ones change nothing. */
  lemma StartsOnce(s: State, granted: bool)
    requires s.started
    ensures Step(s, MediaReady(granted)) == s
  {
  }

  /** A refused getUserMedia reaches startCall's catch, which asks the parent to
      close, whether or not the component is still mounted. No connection, stream
      or channel is created. */
  lemma MediaRefusedCloses(s: State)
    requires !s.started
    ensures Step(s, MediaReady(false)) == s.(started := true, closeRequests := s.closeRequests + 1)
  {
  }

  /** A grant after unmounting stops its own tracks: nothing is created and the
      parent is not asked to close. */
  lemma LateGrantReleased(s: State)
    requires !s.mounted && !s.started
    ensures Step(s, MediaReady(true)) == s.(started := true)
  {
  }

  /** The initiator keeps the stream, creates the connection, publishes its offer
      and then listens on the channel. Nothing is applied. */
  lemma InitiatorStart(s: State)
    requires Good(s) && s.mounted && !s.started && s.config.initiator
    ensures var t := Step(s, MediaReady(true));
      && t == s.(started := true, subscribed := true,
                 media := s.media.(hasStream := true, tracksLive := true),
                 neg := s.neg.(pcExists := true),
                 published := s.published + [OfferSent])
      && !t.neg.remoteDescriptionSet && t.neg.remoteAttempts == []
  {
  }

  /** The responder with an incoming offer hands it to setRemoteDescription once.
      Accepted: the flag rises, the queue is drained, the answer is published and
      the channel subscribed. Rejected: the catch asks the parent to close; nothing
      is published and no channel is subscribed. */
  lemma ResponderStart(s: State, offer: Description)
    requires Good(s) && s.mounted && !s.started
    requires !s.config.initiator && s.config.incomingOffer == Some(offer)
    ensures var t := Step(s, MediaReady(true));
      && t.started && t.neg.pcExists && !t.neg.pcClosed
      && t.media.hasStream && t.media.tracksLive
      && t.neg.remoteAttempts == [offer]
      && (t.neg.remoteDescriptionSet <==> offer.acceptable)
      && (offer.acceptable ==>
            && t.published == s.published + [AnswerSent]
            && t.subscribed
            && t.closeRequests == s.closeRequests
            && t.neg.queue == []
            && t.neg.applied == s.neg.applied + s.neg.queue)
      && (!offer.acceptable ==>
            && t.published == s.published
            && !t.subscribed
            && t.closeRequests == s.closeRequests + 1
            && t.neg.queue == s.neg.queue)
  {
  }

  /** A responder without an incoming offer raises no error: it keeps the stream,
      creates the connection and listens, with nothing applied or published. */
  lemma ResponderStartWithoutOffer(s: State)
    requires Good(s) && s.mounted && !s.started
    requires !s.config.initiator && s.config.incomingOffer == None
    ensures var t := Step(s, MediaReady(true));
      && t == s.(started := true, subscribed := true,
                 media := s.media.(hasStream := true, tracksLive := true),
                 neg := s.neg.(pcExists := true))
      && !t.neg.remoteDescriptionSet
  {
  }

  // ------------------------------------------------------------ runs of events

  lemma {:induction false} RunAppend(s: State, a: seq<Event>, b: seq<Event>)
    ensures Run(s, a + b) == Run(Run(s, a), b)
    decreases |a|
  {
    if a == [] {
      assert a + b == b;
    } else {
      assert (a + b)[0] == a[0];
      assert (a + b)[1..] == a[1..] + b;
      RunAppend(Step(s, a[0]), a[1..], b);
    }
  }

  function CandidateMessage(c: Candidate): (e: Event) {
    Deliver(Message(CandidateMsg, Parsed(None, Some(c))))
  }

  function AnswerMessage(d: Description): (e: Event) {
    Deliver(Message(AnswerMsg, Parsed(Some(d), None)))
  }

  function CandidateMessages(cs: seq<Candidate>): (es: seq<Event>)
    ensures |es| == |cs|
    ensures forall i :: 0 <= i < |cs| ==> es[i] == CandidateMessage(cs[i])
  {
    seq(|cs|, i requires 0 <= i < |cs| => CandidateMessage(cs[i]))
  }

  /** Candidate rows delivered to a listening handler reach the negotiation one by
      one, in delivery order, and change nothing else. */
  lemma {:induction false} RunCandidates(s: State, cs: seq<Candidate>)
    requires s.mounted && s.subscribed && s.neg.pcExists
    ensures Run(s, CandidateMessages(cs)) == s.(neg := ReceiveAll(s.neg, cs))
    decreases |cs|
  {
    if cs != [] {
      var es := CandidateMessages(cs);
      var t := Step(s, es[0]);
      assert t == s.(neg := ReceiveCandidate(s.neg, cs[0]));
      assert es[1..] == CandidateMessages(cs[1..]);
      RunCandidates(t, cs[1..]);
    }
  }

  /** The initiator's first answer row acts on the negotiation alone: raise the
      guard, then set the remote description. */
  lemma AnswerStep(s: State, d: Description)
    requires s.mounted && s.subscribed && s.neg.pcExists
    requires s.config.initiator && !s.neg.hasAnswered
    ensures Run(s, [AnswerMessage(d)]) == s.(neg := SetRemote(s.neg.(hasAnswered := true), d))
  {
    assert [AnswerMessage(d)][1..] == [];
  }

  /** Candidates that arrive before the initiator's first answer are queued, then
      applied once each in arrival order when the answer is accepted, together
      with whatever was queued before; the queue is then empty and every
      candidate that ever arrived has been applied. */
  lemma BufferedCandidatesDrainedInOrder(s: State, cs: seq<Candidate>, d: Description)
    requires Good(s) && s.mounted && s.subscribed
    requires s.config.initiator && !s.neg.hasAnswered && AcceptsRemote(s.neg, d)
    ensures var t := Run(s, CandidateMessages(cs) + [AnswerMessage(d)]);
      && t.neg.remoteDescriptionSet
      && t.neg.queue == []
      && t.neg.applied == s.neg.applied + s.neg.queue + cs
      && t.neg.applied == t.neg.arrived
  {
    RunAppend(s, CandidateMessages(cs), [AnswerMessage(d)]);
    RunCandidates(s, cs);
    var n := s.neg;
    BufferThenDrain(n.(hasAnswered := true), cs, d);
    BufferedInArrivalOrder(n, cs);
    BufferedInArrivalOrder(n.(hasAnswered := true), cs);
    assert ReceiveAll(n, cs).(hasAnswered := true) == ReceiveAll(n.(hasAnswered := true), cs);
    AnswerStep(s.(neg := ReceiveAll(n, cs)), d);
  }

  /** Once the remote description is set, delivered candidates are applied
      directly, in delivery order, and the queue stays empty. */
  lemma CandidatesAfterRemoteAppliedDirectly(s: State, cs: seq<Candidate>)
    requires Good(s) && s.mounted && s.subscribed && s.neg.remoteDescriptionSet
    ensures var t := Run(s, CandidateMessages(cs));
      && t.neg.applied == s.neg.applied + cs
      && t.neg.queue == []
  {
    RunCandidates(s, cs);
    AppliedOnArrival(s.neg, cs);
  }

  // ----------------------------------------------------------- single messages

  /** A candidate row before the remote description is set goes to the end of the
      queue, is not applied, and changes nothing else. */
  lemma CandidateQueuedBeforeRemote(s: State, c: Candidate)
    requires s.mounted && s.subscribed && s.neg.pcExists && !s.neg.remoteDescriptionSet
    ensures Step(s, CandidateMessage(c)) == s.(neg := s.neg.(queue := s.neg.queue + [c], arrived := s.neg.arrived + [c]))
  {
  }

  /** After it is set, the candidate is applied at once and the queue is untouched. */
  lemma CandidateAppliedAfterRemote(s: State, c: Candidate)
    requires s.mounted && s.subscribed && s.neg.pcExists && s.neg.remoteDescriptionSet
    ensures Step(s, CandidateMessage(c)) == s.(neg := s.neg.(applied := s.neg.applied + [c], arrived := s.neg.arrived + [c]))
  {
  }

  /** Without a peer connection every relay row is ignored. */
  lemma MessageIgnoredWithoutConnection(s: State, m: Message)
    requires !s.neg.pcExists
    ensures Step(s, Deliver(m)) == s
  {
  }

  /** A duplicate answer leaves the state unchanged. */
  lemma DuplicateAnswerIgnored(s: State, m: Message)
    requires s.neg.hasAnswered && m.kind == AnswerMsg
    ensures Step(s, Deliver(m)) == s
  {
  }

  /** An answer reaching a responder leaves the state unchanged. */
  lemma AnswerAtResponderIgnored(s: State, m: Message)
    requires !s.config.initiator && m.kind == AnswerMsg
    ensures Step(s, Deliver(m)) == s
  {
  }

  /** Every other row is ignored: unparseable data, an offer, a row of an unknown
      type, an answer without an sdp (which leaves the one-shot guard down), and a
      candidate row without a candidate. */
  lemma OtherRowsIgnored(s: State, m: Message)
    requires || m.data.Unparseable?
             || m.kind == OfferMsg || m.kind == OtherMsg
             || (m.kind == AnswerMsg && m.data.sdp.None?)
             || (m.kind == CandidateMsg && m.data.candidate.None?)
    ensures Step(s, Deliver(m)) == s
  {
  }

  /** The initiator's first answer with an sdp: the guard is raised first, the
      description is handed to setRemoteDescription, and if it is accepted the flag
      is set and the queue drained; if it is rejected the guard stays raised, so
      no later answer is tried. Nothing outside the negotiation changes. */
  lemma FirstAnswerApplied(s: State, d: Description, c: Option<Candidate>)
    requires Good(s) && s.mounted && s.subscribed
    requires s.config.initiator && !s.neg.hasAnswered
    ensures var t := Step(s, Deliver(Message(AnswerMsg, Parsed(Some(d), c))));
      && t == s.(neg := t.neg)
      && t.neg.hasAnswered
      && t.neg.remoteAttempts == [d]
      && (t.neg.remoteDescriptionSet <==> AcceptsRemote(s.neg, d))
      && (AcceptsRemote(s.neg, d) ==> t.neg.queue == [] && t.neg.applied == s.neg.applied + s.neg.queue)
      && (!AcceptsRemote(s.neg, d) ==> t.neg.queue == s.neg.queue && t.neg.applied == s.neg.applied)
  {
  }

  /** The remote-description flag is raised only by the responder's incoming offer
      at start or by the initiator's first answer, and each time the queue has
      just been drained; it is never lowered. */
  lemma RemoteFlagOnlyFromDescription(s: State, e: Event)
    requires Good(s)
    ensures s.neg.remoteDescriptionSet ==> Step(s, e).neg.remoteDescriptionSet
    ensures var t := Step(s, e);
      !s.neg.remoteDescriptionSet && t.neg.remoteDescriptionSet ==>
        && ((e.MediaReady? && !s.config.initiator && s.config.incomingOffer.Some?)
            || (e.Deliver? && e.msg.kind == AnswerMsg && s.config.initiator && !s.neg.hasAnswered))
        && t.neg.queue == []
        && t.neg.applied == s.neg.applied + s.neg.queue
  {
  }

  // ---------------------------------------------------------------- ending

  /** An End row reaching a listening handler invokes endCall once: an End row is
      published, the connection is closed, and the parent is asked to close. */
  lemma EndMessageEndsCall(s: State, m: Message)
    requires s.mounted && s.subscribed && s.neg.pcExists
    requires m.kind == EndMsg && m.data.Parsed?
    ensures var t := Step(s, Deliver(m));
      && t.endCalls == s.endCalls + 1
      && t.published == s.published + [EndSent]
      && t.neg.pcClosed
      && t.closeRequests == s.closeRequests + 1
  {
  }

  /** An ICE state of `failed` or `closed` on an open connection invokes endCall. */
  lemma IceFailureEndsCall(s: State, ice: IceState)
    requires s.mounted && s.neg.pcExists && !s.neg.pcClosed
    requires ice == IceFailed || ice == IceClosed
    ensures var t := Step(s, IceChange(ice));
      && t.endCalls == s.endCalls + 1
      && t.published == s.published + [EndSent]
      && t.neg.pcClosed
  {
  }

  /** Only an End row, an ICE failure or closure, or the hang-up button invoke
      endCall, and each invokes it once. */
  lemma EndCallTriggers(s: State, e: Event)
    ensures var t := Step(s, e);
      && t.endCalls <= s.endCalls + 1
      && (t.endCalls == s.endCalls + 1 <==>
            s.mounted &&
            (|| e.HangUp?
             || (e.IceChange? && (e.ice == IceFailed || e.ice == IceClosed) && s.neg.pcExists && !s.neg.pcClosed)
             || (e.Deliver? && e.msg.kind == EndMsg && e.msg.data.Parsed? && s.subscribed && s.neg.pcExists)))
  {
  }

  /** Every teardown leaves no local capture track running: endCall, whichever
      path invokes it, and unmounting. */
  lemma TeardownStopsCapture(s: State, e: Event)
    requires Good(s)
    ensures var t := Step(s, e);
      t.endCalls > s.endCalls || !t.mounted ==> !t.media.tracksLive
  {
  }

  /** Unmounting closes the connection and removes the channel; it publishes
      nothing and does not call onClose. */
  lemma CleanupEffects(s: State)
    requires s.mounted
    ensures var t := Step(s, Unmount);
      && !t.mounted && !t.subscribed
      && (s.neg.pcExists ==> t.neg.pcClosed)
      && t.published == s.published && t.endCalls == s.endCalls && t.closeRequests == s.closeRequests
  {
  }

  /** After unmounting every event but getUserMedia settling is ignored. */
  lemma UnmountedIgnoresEvents(s: State, e: Event)
    requires !s.mounted && !e.MediaReady?
    ensures Step(s, e) == s
  {
  }

  /** Once unmounted, no reachable state holds a running capture track. */
  lemma UnmountedHoldsNoCapture(config: Config, es: seq<Event>)
    ensures var s := Run(Init(config), es);
      !s.mounted ==> !s.media.tracksLive
  {
    ReachableGood(config, es);
  }

  /** As written, a call ended by the remote party and then unmounted keeps the
      local camera and microphone running: the endCall reached from the relay
      handler and the unmount cleanup both read the first render's `stream`. */
  lemma RemoteEndLeavesCaptureRunningAsWritten()
    ensures var s0 := Init(Config(true, Video, None));
      var s1 := StepAsWritten(s0, MediaReady(true));
      var s2 := StepAsWritten(s1, Deliver(Message(EndMsg, Parsed(None, None))));
      var s3 := StepAsWritten(s2, Unmount);
      && s2.endCalls == 1
      && !s3.mounted
      && s3.media.tracksLive
  {
  }

  // ------------------------------------------------------ the code as written

  /** endCall and the cleanup, with or without sight of the stream, differ only in
      whether the capture tracks are stopped. */
  lemma TeardownSameButCapture(a: State, b: State)
    requires SameButCapture(a, b)
    ensures SameButCapture(EndCall(a, false), EndCall(b, true))
    ensures SameButCapture(Cleanup(a, false), Cleanup(b, true))
  {
  }

  lemma StartCallSameButCapture(a: State, b: State, granted: bool)
    requires SameButCapture(a, b)
    ensures SameButCapture(StartCall(a, granted), StartCall(b, granted))
    ensures SameButCapture(SettleAfterUnmount(a, granted), SettleAfterUnmount(b, granted))
  {
  }

  lemma HandlersSameButCapture(a: State, b: State, m: Message, ice: IceState)
    requires SameButCapture(a, b)
    ensures SameButCapture(OnMessage(a, m, false), OnMessage(b, m, true))
    ensures SameButCapture(OnIceChange(a, ice, false), OnIceChange(b, ice, true))
  {
    TeardownSameButCapture(a, b);
  }

  lemma ControlsSameButCapture(a: State, b: State, kind: TrackKind, withStream: bool)
    requires SameButCapture(a, b)
    ensures SameButCapture(OnTrack(a, kind, withStream), OnTrack(b, kind, withStream))
    ensures SameButCapture(OnTick(a), OnTick(b))
  {
  }

  lemma TogglesSameButCapture(a: State, b: State)
    requires SameButCapture(a, b)
    ensures SameButCapture(OnToggleMute(a), OnToggleMute(b))
    ensures SameButCapture(OnToggleVideo(a), OnToggleVideo(b))
    ensures SameButCapture(OnToggleSpeaker(a), OnToggleSpeaker(b))
  {
  }

  /** The source's transition and the corrected one differ only in whether the
      local capture tracks are still running: from states that differ at most
      there, they reach states that differ at most there. */
  lemma StepAsWrittenSameButCapture(a: State, b: State, e: Event)
    requires SameButCapture(a, b)
    ensures SameButCapture(StepAsWritten(a, e), Step(b, e))
  {
    match e
    case MediaReady(granted) => StartCallSameButCapture(a, b, granted);
    case Deliver(m) => HandlersSameButCapture(a, b, m, IceNew);
    case IceChange(ice) => HandlersSameButCapture(a, b, Message(OtherMsg, Unparseable), ice);
    case TrackArrived(kind, withStream) => ControlsSameButCapture(a, b, kind, withStream);
    case HangUp => TeardownSameButCapture(a, b);
    case Unmount => TeardownSameButCapture(a, b);
    case Tick => ControlsSameButCapture(a, b, AudioTrack, false);
    case _ => TogglesSameButCapture(a, b);
  }

  lemma {:induction false} RunAsWrittenSameButCapture(a: State, b: State, es: seq<Event>)
    requires SameButCapture(a, b)
    ensures SameButCapture(RunAsWritten(a, es), Run(b, es))
    decreases |es|
  {
    if es != [] {
      StepAsWrittenSameButCapture(a, b, es[0]);
      RunAsWrittenSameButCapture(StepAsWritten(a, es[0]), Step(b, es[0]), es[1..]);
    }
  }

  /** Every property of a run proved here, except those about the capture tracks,
      holds of the code as written: its runs reach the same negotiation, controls,
      relay output, lifecycle and close requests as the corrected ones. */
  lemma AsWrittenAgreesButCapture(config: Config, es: seq<Event>)
    ensures var w := RunAsWritten(Init(config), es);
      var s := Run(Init(config), es);
      && w.neg == s.neg && w.ui == s.ui && w.published == s.published
      && w.mounted == s.mounted && w.started == s.started && w.subscribed == s.subscribed
      && w.endCalls == s.endCalls && w.closeRequests == s.closeRequests
      && w.media.hasStream == s.media.hasStream
      && w.media.audioEnabled == s.media.audioEnabled && w.media.videoEnabled == s.media.videoEnabled
  {
    RunAsWrittenSameButCapture(Init(config), Init(config), es);
  }

  /** In particular no candidate is lost or applied twice in the code as written,
      and at most one remote description is tried. */
  lemma NoCandidateLostAsWritten(config: Config, es: seq<Event>)
    ensures var w := RunAsWritten(Init(config), es);
      && w.neg.applied + w.neg.queue == w.neg.arrived
      && (w.neg.remoteDescriptionSet ==> w.neg.queue == [] && w.neg.applied == w.neg.arrived)
      && |w.neg.remoteAttempts| <= 1
  {
    AsWrittenAgreesButCapture(config, es);
    NoCandidateLostOrDuplicated(config, es);
    AtMostOneRemoteDescription(config, es);
  }

  // --------------------------------------------------------- connecting flag

  /** Once connecting is over it never starts again. */
  lemma ConnectingIsOneWay(s: State, e: Event)
    ensures !s.ui.isConnecting ==> !Step(s, e).ui.isConnecting
  {
  }

  /** Connecting ends exactly when an open connection reports ICE `connected` or
      delivers a track with a stream. */
  lemma ConnectingEndsOnConnectivity(s: State, e: Event)
    requires s.ui.isConnecting
    ensures !Step(s, e).ui.isConnecting <==>
      && s.mounted && s.neg.pcExists && !s.neg.pcClosed
      && (e == IceChange(IceConnected) || (e.TrackArrived? && e.withStream))
  {
    if s.mounted {
      match e
      case MediaReady(granted) =>
      case Deliver(m) =>
      case IceChange(ice) =>
      case TrackArrived(kind, withStream) =>
      case HangUp =>
      case Unmount =>
      case _ =>
    }
  }

  // ---------------------------------------------------------------- duration

  /** A tick adds exactly one second once connecting is over, and nothing else
      moves the duration. */
  lemma DurationCountsConnectedTicks(s: State, e: Event)
    ensures Step(s, e).ui.callDuration ==
      s.ui.callDuration + (if e == Tick && s.mounted && !s.ui.isConnecting then 1 else 0)
  {
    if s.mounted {
      match e
      case MediaReady(granted) =>
      case Deliver(m) =>
      case IceChange(ice) =>
      case HangUp =>
      case Unmount =>
      case _ =>
    }
  }

  /** The duration stays 0 for as long as the call is connecting. */
  lemma DurationZeroWhileConnecting(config: Config, es: seq<Event>)
    ensures var s := Run(Init(config), es);
      s.ui.isConnecting ==> s.ui.callDuration == 0
  {
    ReachableGood(config, es);
  }

  function Ticks(k: nat): (es: seq<Event>)
    ensures |es| == k
    ensures forall i :: 0 <= i < k ==> es[i] == Tick
  {
    seq(k, _ => Tick)
  }

  /** Once connected, k ticks add exactly k seconds and change nothing else. */
  lemma {:induction false} TicksAfterConnected(s: State, k: nat)
    requires s.mounted && !s.ui.isConnecting
    ensures Run(s, Ticks(k)) == s.(ui := s.ui.(callDuration := s.ui.callDuration + k))
    decreases k
  {
    if k > 0 {
      var t := Step(s, Tick);
      assert Ticks(k)[1..] == Ticks(k - 1);
      TicksAfterConnected(t, k - 1);
    }
  }

  // ---------------------------------------------------------------- toggles

  predicate IsToggle(e: Event) {
    e.ToggleMute? || e.ToggleVideo? || e.ToggleSpeaker?
  }

  /** The toggles touch only the local capture's enabled flags and the indicators:
      negotiation, connecting flag, duration, relay output and lifecycle are
      unchanged. */
  lemma TogglesLeaveCallAlone(s: State, e: Event)
    requires IsToggle(e)
    ensures var t := Step(s, e);
      && t == s.(media := t.media, ui := t.ui)
      && t.media.hasStream == s.media.hasStream && t.media.tracksLive == s.media.tracksLive
      && t.ui.isConnecting == s.ui.isConnecting && t.ui.callDuration == s.ui.callDuration
      && (e.ToggleMute? ==>
            t.media == s.media.(audioEnabled := t.media.audioEnabled) && t.ui == s.ui.(isMuted := t.ui.isMuted))
      && (e.ToggleVideo? ==>
            t.media == s.media.(videoEnabled := t.media.videoEnabled) && t.ui == s.ui.(isVideoOff := t.ui.isVideoOff))
      && (e.ToggleSpeaker? ==>
            t.media == s.media
            && t.ui == s.ui.(isSpeakerOn := t.ui.isSpeakerOn, remoteAudioMuted := t.ui.remoteAudioMuted))
  {
  }

  /** Toggling twice restores the state. */
  lemma ToggleTwiceRestores(s: State, e: Event)
    requires Good(s) && IsToggle(e)
    ensures Step(Step(s, e), e) == s
  {
  }

  /** Each toggle keeps its indicator in step with what it controls. */
  lemma ToggleIndicatorsFollow(s: State, e: Event)
    requires Good(s) && s.mounted && IsToggle(e)
    ensures var t := Step(s, e);
      && (e.ToggleMute? && s.media.hasStream ==> t.ui.isMuted == !s.ui.isMuted && t.ui.isMuted == !t.media.audioEnabled)
      && (e.ToggleSpeaker? ==> t.ui.isSpeakerOn == !s.ui.isSpeakerOn && t.ui.remoteAudioMuted == !t.ui.isSpeakerOn)
      && (e.ToggleVideo? && s.media.hasStream && s.config.callType == Video ==> t.ui.isVideoOff == !s.ui.isVideoOff && t.ui.isVideoOff == !t.media.videoEnabled)
  {
  }

  /** A voice call has no video track: the camera toggle changes nothing. */
  lemma VideoToggleInVoiceCallIsNoOp(s: State)
    requires s.config.callType == Voice
    ensures Step(s, ToggleVideo) == s
  {
  }

  // ---------------------------------------------------------------- scenario

  /** An initiator's video call: two candidates before the answer, one after, then
      ICE reports connected. All three are applied in arrival order, the queue is
      empty and the call is connected. */
  lemma InitiatorScenario(c1: Candidate, c2: Candidate, c3: Candidate, d: Description)
    requires d.acceptable
    ensures var t := Run(Init(Config(true, Video, None)),
                         [MediaReady(true), CandidateMessage(c1), CandidateMessage(c2), AnswerMessage(d),
                          CandidateMessage(c3), IceChange(IceConnected)]);
      && t.neg.applied == [c1, c2, c3]
      && t.neg.queue == []
      && !t.ui.isConnecting
      && t.published == [OfferSent]
  {
    var es := [MediaReady(true), CandidateMessage(c1), CandidateMessage(c2), AnswerMessage(d),
               CandidateMessage(c3), IceChange(IceConnected)];
    var s0 := Init(Config(true, Video, None));
    var s1 := Step(s0, es[0]);
    var s2 := Step(s1, es[1]);
    var s3 := Step(s2, es[2]);
    assert s3.neg.queue == [c1, c2];
    var s4 := Step(s3, es[3]);
    assert s4.neg.applied == [c1, c2] && s4.neg.queue == [];
    var s5 := Step(s4, es[4]);
    assert s5.neg.applied == [c1, c2, c3];
    var s6 := Step(s5, es[5]);
    assert !s6.ui.isConnecting;
    assert Run(s6, es[6..]) == s6;
    assert Run(s5, es[5..]) == Run(s6, es[6..]);
    assert Run(s4, es[4..]) == Run(s5, es[5..]);
    assert Run(s3, es[3..]) == Run(s4, es[4..]);
    assert Run(s2, es[2..]) == Run(s3, es[3..]);
    assert Run(s1, es[1..]) == Run(s2, es[2..]);
    assert Run(s0, es) == Run(s1, es[1..]);
  }
}

=== FILE: channel.dfy ===
/**
 The relay channel both parties subscribe to: `call-` followed by the two user
 ids, sorted with JavaScript's default string order and joined by '-'. Sorting
 makes the name independent of which party computes it.
 */
module Channel {

  /** JavaScript's `<` on strings, as a lexicographic comparison of characters, a
      proper prefix coming first. */
  predicate Below(a: string, b: string)
    decreases |a|
  {
    if |a| == 0 then |b| > 0
    else if |b| == 0 then false
    else if a[0] != b[0] then a[0] < b[0]
    else Below(a[1..], b[1..])
  }

  lemma {:induction false} BelowAsymmetric(a: string, b: string)
    ensures !(Below(a, b) && Below(b, a))
    decreases |a|
  {
    if |a| > 0 && |b| > 0 && a[0] == b[0] {
      BelowAsymmetric(a[1..], b[1..]);
    }
  }

  lemma {:induction false} BelowTransitive(a: string, b: string, c: string)
    requires Below(a, b) && Below(b, c)
    ensures Below(a, c)
    decreases |a|
  {
    if |a| > 0 && a[0] == b[0] && b[0] == c[0] {
      BelowTransitive(a[1..], b[1..], c[1..]);
    }
  }

  lemma {:induction false} BelowTotal(a: string, b: string)
    ensures a == b || Below(a, b) || Below(b, a)
    decreases |a|
  {
    if |a| > 0 && |b| > 0 && a[0] == b[0] {
      BelowTotal(a[1..], b[1..]);
      assert a == [a[0]] + a[1..];
      assert b == [b[0]] + b[1..];
    }
  }

  /** Sorting two ids with the default comparator: `b` goes first exactly when it is
      below `a`; the sort is stable, so equal ids keep their order. */
  function SortedPair(a: string, b: string): (p: (string, string))
    ensures (p.0 == a && p.1 == b) || (p.0 == b && p.1 == a)
    ensures !Below(p.1, p.0)
  {
    if Below(b, a) then
      BelowAsymmetric(a, b);
      (b, a)
    else (a, b)
  }

  /** The channel id: the two user ids in sorted order, joined by a hyphen. */
  function ChannelId(userId: string, contactId: string): (r: string)
    ensures r == userId + "-" + contactId || r == contactId + "-" + userId
  {
    var p := SortedPair(userId, contactId);
    p.0 + "-" + p.1
  }

  /** The name of the relay channel both parties listen on. */
  function ChannelName(userId: string, contactId: string): (r: string)
    ensures r == "call-" + userId + "-" + contactId || r == "call-" + contactId + "-" + userId
  {
    "call-" + ChannelId(userId, contactId)
  }

  /** The caller and the callee compute the same channel id. */
  lemma ChannelIdSymmetric(a: string, b: string)
    ensures ChannelId(a, b) == ChannelId(b, a)
  {
    BelowTotal(a, b);
    BelowAsymmetric(a, b);
  }

  /** ... and therefore subscribe to the same channel. */
  lemma ChannelNameSymmetric(a: string, b: string)
    ensures ChannelName(a, b) == ChannelName(b, a)
  {
    ChannelIdSymmetric(a, b);
  }

  /** The id lists the smaller of the two user ids first. */
  lemma ChannelIdOrdered(a: string, b: string)
    ensures Below(a, b) ==> ChannelId(a, b) == a + "-" + b
    ensures Below(b, a) ==> ChannelId(a, b) == b + "-" + a
  {
    BelowAsymmetric(a, b);
  }
}

=== FILE: duration.dfy ===
/**
 The call-duration label shown once the call is connected: whole minutes, a
 colon, and the seconds within the minute padded to two digits ("m:ss").
 `ParseDuration` reads such a label back and is the partner of `FormatDuration`.
 */
module Duration {
  import opened Options

  predicate IsDigit(ch: char) {
    '0' <= ch <= '9'
  }

  predicate AllDigits(t: string) {
    forall i :: 0 <= i < |t| ==> IsDigit(t[i])
  }

  function DigitChar(d: nat): (ch: char)
    requires d < 10
    ensures IsDigit(ch)
    ensures ch as int - '0' as int == d
  {
    ('0' as int + d) as char
  }

  function DigitValue(ch: char): (d: nat)
    requires IsDigit(ch)
    ensures d < 10
  {
    ch as int - '0' as int
  }

  /** Decimal rendering of a non-negative integer, as JavaScript's number-to-string
      conversion produces it for integers: no sign, no leading zero. */
  function Decimal(n: nat): (r: string)
    ensures 1 <= |r|
    ensures AllDigits(r)
    ensures r[0] == '0' <==> n == 0
    ensures n < 10 <==> |r| == 1
    ensures n < 100 ==> |r| <= 2
    decreases n
  {
    if n < 10 then [DigitChar(n)] else Decimal(n / 10) + [DigitChar(n % 10)]
  }

  /** The number a string of decimal digits denotes. */
  function ValueOf(t: string): (n: nat)
    requires AllDigits(t)
    decreases |t|
  {
    if t == [] then 0 else 10 * ValueOf(t[..|t| - 1]) + DigitValue(t[|t| - 1])
  }

  lemma {:induction false} DecimalValue(n: nat)
    ensures ValueOf(Decimal(n)) == n
    decreases n
  {
    var r := Decimal(n);
    if n >= 10 {
      assert r[..|r| - 1] == Decimal(n / 10);
      DecimalValue(n / 10);
    }
  }

  /** Left padding with a one-character filler: `t` preceded by as many fillers
      as it is short of `width`. */
  function PadStart(t: string, width: nat, fill: char): (r: string)
    ensures |r| == if |t| < width then width else |t|
  {
    if |t| >= width then t else seq(width - |t|, _ => fill) + t
  }

  /** The seconds field, the decimal seconds left-padded with zeros to two
      characters, is for a second within the minute two digits, the first at most
      5, denoting `sec`. */
  lemma SecondsField(sec: nat)
    requires sec < 60
    ensures var p := PadStart(Decimal(sec), 2, '0');
      && |p| == 2 && AllDigits(p) && p[0] <= '5' && ValueOf(p) == sec
  {
    var d := Decimal(sec);
    var p := PadStart(d, 2, '0');
    DecimalValue(sec);
    if |d| == 1 {
      assert p == ['0'] + d;
      assert p[..1] == ['0'];
      assert ['0'][..0] == [];
      assert d[..0] == [];
    } else {
      assert p == d;
      assert d[..1] == Decimal(sec / 10);
    }
  }

  /** The label for `minutes` whole minutes and `seconds` more: a digit field that
      denotes the minutes, with no leading zero unless it is the single digit 0,
      a colon, and two digits, the first at most 5, that denote the seconds. */
  function Label(minutes: nat, seconds: nat): (r: string)
    requires seconds < 60
    ensures 4 <= |r|
    ensures r[|r| - 3] == ':'
    ensures AllDigits(r[..|r| - 3]) && ValueOf(r[..|r| - 3]) == minutes
    ensures |r| > 4 ==> r[0] != '0'
    ensures AllDigits(r[|r| - 2..]) && r[|r| - 2] <= '5' && ValueOf(r[|r| - 2..]) == seconds
  {
    var m := Decimal(minutes);
    var p := PadStart(Decimal(seconds), 2, '0');
    SecondsField(seconds);
    DecimalValue(minutes);
    var r := m + ":" + p;
    assert r[..|r| - 3] == m;
    assert r[|r| - 2..] == p;
    r
  }

  /** formatDuration: the whole minutes in decimal, a colon, then the remaining
      seconds in decimal padded with zeros to two digits. The label always ends
      in a colon followed by two digits, the first of them at most 5, and
      everything before the colon is digits. */
  function FormatDuration(s: nat): (r: string)
    ensures 4 <= |r|
    ensures r[|r| - 3] == ':'
    ensures AllDigits(r[..|r| - 3])
    ensures AllDigits(r[|r| - 2..])
    ensures r[|r| - 2] <= '5'
    ensures |r| > 4 ==> r[0] != '0'
  {
    Label(s / 60, s % 60)
  }

  /** Reads an "m:ss" label back: digits, a colon, then exactly two digits below 60. */
  function ParseDuration(t: string): (r: Option<nat>)
  {
    if |t| < 4 || t[|t| - 3] != ':' then None
    else
      var mm := t[..|t| - 3];
      var ss := t[|t| - 2..];
      if AllDigits(mm) && AllDigits(ss) && ValueOf(ss) < 60 then Some(60 * ValueOf(mm) + ValueOf(ss))
      else None
  }

  /** The two fields of the label: the part before the colon denotes `s div 60`,
      the two digits after it denote `s mod 60`. */
  lemma FormatDurationFields(s: nat)
    ensures var r := FormatDuration(s);
      && ValueOf(r[..|r| - 3]) == s / 60
      && ValueOf(r[|r| - 2..]) == s % 60
  {
  }

  /** Parsing a formatted label gives back the number of seconds. */
  lemma FormatParseRoundTrip(s: nat)
    ensures ParseDuration(FormatDuration(s)) == Some(s)
  {
    FormatDurationFields(s);
  }

  /** Distinct durations never share a label. */
  lemma FormatDurationInjective(a: nat, b: nat)
    requires FormatDuration(a) == FormatDuration(b)
    ensures a == b
  {
    FormatParseRoundTrip(a);
    FormatParseRoundTrip(b);
  }
}

=== FILE: negotiation.dfy ===
/**
 The negotiation side of a call: the peer connection's lifecycle, the one-shot
 answer guard, the remote-description flag and the ICE-candidate buffer.

 Session descriptions and candidates are opaque. Whether the browser accepts
 one is not computed here: each value carries the browser's verdict
 (`acceptable`), and a closed connection rejects everything.
 */
module Signaling {

  /** An ICE candidate as a relay message carries it. */
  datatype Candidate = Candidate(payload: string, acceptable: bool)

  /** A remote session description (the initiator's answer or the responder's offer). */
  datatype Description = Description(payload: string, acceptable: bool)

  /** `applied` logs every candidate handed to addIceCandidate, in order; `failed`
      logs those whose rejection a drain caught and reported; `arrived` logs every
      candidate that reached the candidate branch of the relay handler, and exists
      only so that what became of each of them can be stated. `remoteAttempts` logs
      every description handed to setRemoteDescription. */
  datatype Negotiation = Negotiation(
    pcExists: bool,
    pcClosed: bool,
    hasAnswered: bool,
    remoteDescriptionSet: bool,
    remoteAttempts: seq<Description>,
    queue: seq<Candidate>,
    applied: seq<Candidate>,
    failed: seq<Candidate>,
    arrived: seq<Candidate>)

  /** Before startCall has created a peer connection. */
  const Idle: Negotiation := Negotiation(false, false, false, false, [], [], [], [], [])

  /** addIceCandidate resolves. */
  predicate Accepts(n: Negotiation, c: Candidate) {
    c.acceptable && !n.pcClosed
  }

  /** setRemoteDescription resolves. */
  predicate AcceptsRemote(n: Negotiation, d: Description) {
    d.acceptable && !n.pcClosed
  }

  /** The buffering discipline: every candidate that arrived has been applied or is
      still queued, in arrival order; nothing waits once the remote description is
      set; a flag or a closed connection needs a connection. */
  ghost predicate Valid(n: Negotiation) {
    && n.applied + n.queue == n.arrived
    && (n.remoteDescriptionSet ==> n.queue == [] && n.pcExists)
    && (n.pcClosed ==> n.pcExists)
  }

  /** The candidates of `cs` that addIceCandidate rejects, in order. */
  function Failures(cs: seq<Candidate>, open: bool): (r: seq<Candidate>)
    decreases |cs|
  {
    if cs == [] then []
    else (if open && cs[0].acceptable then [] else [cs[0]]) + Failures(cs[1..], open)
  }

  /** A candidate is reported by a drain exactly when addIceCandidate rejects it,
      and the reports keep queue order. */
  lemma {:induction false} FailuresAreRejections(cs: seq<Candidate>, open: bool, c: Candidate)
    ensures c in Failures(cs, open) <==> c in cs && !(open && c.acceptable)
    ensures |Failures(cs, open)| <= |cs|
    decreases |cs|
  {
    if cs != [] {
      FailuresAreRejections(cs[1..], open, c);
      assert cs == [cs[0]] + cs[1..];
    }
  }

  /** Taking one candidate off the front keeps what has been applied or reported
      followed by what is still waiting. */
  lemma DrainStep(n: Negotiation)
    requires n.queue != []
    ensures var c := n.queue[0];
      && (n.applied + [c]) + n.queue[1..] == n.applied + n.queue
      && (if Accepts(n, c) then n.failed else n.failed + [c]) + Failures(n.queue[1..], !n.pcClosed)
         == n.failed + Failures(n.queue, !n.pcClosed)
  {
    var c := n.queue[0];
    assert n.queue == [c] + n.queue[1..];
  }

  /** processQueuedCandidates: apply every queued candidate once, in arrival order;
      a rejection is reported and the drain carries on; the queue ends empty.
      Nothing else about the negotiation changes. */
  function Drain(n: Negotiation): (r: Negotiation)
    ensures r == n.(queue := [], applied := n.applied + n.queue, failed := n.failed + Failures(n.queue, !n.pcClosed))
    decreases |n.queue|
  {
    if n.queue == [] then n
    else
      var c := n.queue[0];
      var next := n.(queue := n.queue[1..],
                     applied := n.applied + [c],
                     failed := if Accepts(n, c) then n.failed else n.failed + [c]);
      DrainStep(n);
      Drain(next)
  }

  /** The drain as the source writes it: a loop that takes the first queued
      candidate off, hands it to addIceCandidate, and reports a rejection before
      going on, until the queue is empty. */
  method ProcessQueuedCandidates(n: Negotiation) returns (r: Negotiation)
    ensures r.queue == []
    ensures r.applied == n.applied + n.queue
    ensures r.failed == n.failed + Failures(n.queue, !n.pcClosed)
    ensures r == n.(queue := [], applied := r.applied, failed := r.failed)
  {
    r := n;
    while |r.queue| > 0
      invariant r == n.(queue := r.queue, applied := r.applied, failed := r.failed)
      invariant r.applied + r.queue == n.applied + n.queue
      invariant r.failed + Failures(r.queue, !n.pcClosed) == n.failed + Failures(n.queue, !n.pcClosed)
      decreases |r.queue|
    {
      var candidate := r.queue[0];
      DrainStep(r);
      r := r.(queue := r.queue[1..]);
      if Accepts(r, candidate) {
        r := r.(applied := r.applied + [candidate]);
      } else {
        r := r.(applied := r.applied + [candidate], failed := r.failed + [candidate]);
      }
    }
  }

  /** The candidate branch of the relay handler: applied at once when the remote
      description is set, otherwise appended to the queue. */
  function ReceiveCandidate(n: Negotiation, c: Candidate): (r: Negotiation)
    ensures Valid(n) ==> Valid(r)
    ensures r.arrived == n.arrived + [c]
    ensures !n.remoteDescriptionSet ==> r.queue == n.queue + [c] && r.applied == n.applied
    ensures n.remoteDescriptionSet ==> r.queue == n.queue && r.applied == n.applied + [c]
  {
    var logged := n.(arrived := n.arrived + [c]);
    if n.remoteDescriptionSet then logged.(applied := n.applied + [c])
    else logged.(queue := n.queue + [c])
  }

  /** setRemoteDescription(d), and when it resolves, raise the flag and drain the
      buffer. When it rejects the flag stays as it was and nothing is drained. */
  function SetRemote(n: Negotiation, d: Description): (r: Negotiation)
    ensures r.remoteAttempts == n.remoteAttempts + [d]
    ensures r.remoteDescriptionSet == (n.remoteDescriptionSet || AcceptsRemote(n, d))
    ensures AcceptsRemote(n, d) ==> r.queue == [] && r.applied == n.applied + n.queue
    ensures !AcceptsRemote(n, d) ==> r == n.(remoteAttempts := n.remoteAttempts + [d])
    ensures r.arrived == n.arrived && r.hasAnswered == n.hasAnswered
    ensures r.pcExists == n.pcExists && r.pcClosed == n.pcClosed
    ensures Valid(n) && n.pcExists ==> Valid(r)
  {
    var tried := n.(remoteAttempts := n.remoteAttempts + [d]);
    if AcceptsRemote(n, d) then Drain(tried.(remoteDescriptionSet := true)) else tried
  }

  /** Candidates delivered one after another. */
  function ReceiveAll(n: Negotiation, cs: seq<Candidate>): (r: Negotiation)
    decreases |cs|
  {
    if cs == [] then n else ReceiveAll(ReceiveCandidate(n, cs[0]), cs[1..])
  }

  /** Before the remote description is set, candidates are queued in arrival order
      and none is applied. */
  lemma {:induction false} BufferedInArrivalOrder(n: Negotiation, cs: seq<Candidate>)
    requires !n.remoteDescriptionSet
    ensures ReceiveAll(n, cs) == n.(queue := n.queue + cs, arrived := n.arrived + cs)
    decreases |cs|
  {
    if cs != [] {
      var n' := ReceiveCandidate(n, cs[0]);
      BufferedInArrivalOrder(n', cs[1..]);
      assert cs == [cs[0]] + cs[1..];
      assert n'.queue + cs[1..] == n.queue + cs;
      assert n'.arrived + cs[1..] == n.arrived + cs;
    }
  }

  /** Once it is set, candidates are applied in arrival order and the queue is
      left alone. */
  lemma {:induction false} AppliedOnArrival(n: Negotiation, cs: seq<Candidate>)
    requires n.remoteDescriptionSet
    ensures ReceiveAll(n, cs) == n.(applied := n.applied + cs, arrived := n.arrived + cs)
    decreases |cs|
  {
    if cs != [] {
      var n' := ReceiveCandidate(n, cs[0]);
      AppliedOnArrival(n', cs[1..]);
      assert cs == [cs[0]] + cs[1..];
      assert n'.applied + cs[1..] == n.applied + cs;
      assert n'.arrived + cs[1..] == n.arrived + cs;
    }
  }

  /** Candidates that arrive before the remote description are all applied, once
      each and in arrival order, as soon as the description is accepted; the
      buffer is then empty. */
  lemma BufferThenDrain(n: Negotiation, cs: seq<Candidate>, d: Description)
    requires Valid(n) && n.pcExists && !n.remoteDescriptionSet && AcceptsRemote(n, d)
    ensures var r := SetRemote(ReceiveAll(n, cs), d);
      && r.remoteDescriptionSet
      && r.queue == []
      && r.applied == n.applied + n.queue + cs
      && r.applied == r.arrived
  {
    BufferedInArrivalOrder(n, cs);
    var m := ReceiveAll(n, cs);
    assert m.applied + m.queue == m.arrived;
  }
}

=== FILE: options.dfy ===
/** An optional value: the source's `undefined`/falsy fields and failed parses. */
module Options {

  datatype Option<+T> = None | Some(value: T)

}
